=== FILE: README.md ===
# EmoSic decision layer in Dafny

EmoSic is a Streamlit page. A user describes their mood, a text classifier
labels the emotion, and the page lists song links for that emotion in a
chosen language. It also has a feedback form that appends a row to a
spreadsheet. This project models what is left of `app.py` once the
rendering, the model pipeline and the spreadsheet calls are removed. Four
pieces remain:

- **Session state** (`Session`). The part of `st.session_state` that the
  script itself reads and writes is a map from key to `None` or a string.
  The initialiser fills only the keys that are absent.
  The "Get My Playlist!" handler then does one of two things:
  - blank text (`text.strip() == ""`) resets `detected_emotion` to `None`;
  - any other text stores the classifier's lower-cased label together with
    the raw text.

  The classifier is a function parameter.
- **The catalog** (`Catalog`). `EMOTION_PLAYLISTS` is written out in full as
  an association list: emotion, then language, then an ordered list of
  `Song(title, url)`. The lists keep the key order of the Python dict,
  which is the order the language selector shows.
- **The recommendation section** (`Recommend`, `Shipped`):
  - the list of available languages, which indexes the table directly and so
    raises `KeyError` for a label the table lacks;
  - the selector's starting index, from `list.index` with a fallback to 0 on
    `ValueError`;
  - the value the selector returns;
  - the guarded lookup, with three outcomes: songs, "no songs in this
    language" and "not found".
- **The feedback row** (`Feedback`). Six cells, in this order: timestamp,
  saved text, title-cased emotion or `"N/A"`, the selector's language or
  `"N/A"`, the rating label, and the comment.

`Page.Rerun` chains these into one top-to-bottom run of the script, and
`Page.RunAll` folds it over a sequence of user events. Python's `str`
methods are modelled in `PyStr`. `list.index` and dict lookup are modelled in
`PyList`.

The model shows the behaviour the code actually has:

- **Unknown labels raise.** A non-empty label whose lower case is not one of
  the six emotions raises `KeyError` at line 349. This happens before the
  guard at line 362 that was meant to show "no songs for this emotion"
  (`Page.UnknownLabelRaises`). A label such as `"JOY"` is lower-cased and
  found; an empty label hides the section.
- **"Not found" is unreachable.** The selector only returns one of its
  options, so the "not found" branch at lines 373-374 can never run
  (`Recommend.NotFoundUnreachable`). With the shipped table, the "no songs
  in this language" branch can never run either (`Page.ShippedAlwaysListsSongs`).
- **The default language is always English.** Line 351 reads
  `music_lang_select`, which nothing ever writes, so the selector always
  starts on `"English"` (`Page.TargetStaysEnglish`).
- **An unoffered language cannot be chosen.** A pick that is not one of the
  emotion's languages, such as `"French"`, falls back to the option at the
  starting index (`Page.FrenchFallsBackToEnglish`).
- **The classifier call is unguarded.** No handler surrounds the call at
  line 334, so a classifier exception ends the run (see "Left out").

Emoji and curly quotes in titles, links and rating labels are written as
their Unicode code points (`\U{1F60D}` for 😍, for example).

## Model

| member | source | states |
|---|---|---|
| PyStr.Strip | app.py:329 | `str.strip()` returns the slice of the input left after removing an all-whitespace prefix and an all-whitespace suffix, with no whitespace at either end of what remains |
| PyStr.StripEmptyIffBlank | app.py:329 | the blank-input test `text.strip() == ""` holds exactly when every character is Python whitespace, the empty text included |
| PyStr.Lower | app.py:335 | the lower-cased label has the same length, contains no capital letter, and changes each character only by lowering it |
| PyStr.LowerIdempotent | app.py:335 | lowering twice is lowering once, and a label without capitals is returned unchanged |
| PyStr.TitleOfLower | app.py:397 | lower-casing the label before storing it loses nothing: its title case equals the title case of the label as the classifier produced it |
| PyStr.Title | app.py:397 | `str.title()` keeps the length and sets each letter's case: upper after an uncased character or at the start, lower after a cased one |
| PyStr.TitleOfLowerWord | app.py:397 | a lower-case word is title-cased by capitalising only its first letter |
| PyList.IndexOf | app.py:351-353 | `list.index` gives the first position holding the value, and raises `ValueError` (here `None`) exactly when the value is absent |
| PyList.Lookup | app.py:349 | dict indexing succeeds exactly for the dict's keys and yields the value paired with the key's first occurrence |
| PyList.LookupDistinct | app.py:362-363 | with no repeated keys, looking up any stored key yields the value stored with it |
| PyList.Keys | app.py:349 | `list(d.keys())` has one entry per pair, each the pair's key in insertion order |
| Catalog.CatalogWellFormed | app.py:28-232 | no emotion is repeated; every emotion offers at least one language and none twice; every title and every link is non-empty |
| Catalog.CatalogShape | app.py:28-232 | the table's keys are joy, sadness, anger, fear, love, surprise in that order; each offers English, Hindi, Telugu and Kannada in that order; every list is non-empty |
| Catalog.JoyEnglishConfigured | app.py:29-41 | joy/English is the first entry and holds eleven songs, from "Happy - Pharrell Williams" to "A Sky Full of Stars - Coldplay" |
| Session.Init | app.py:321-324 | initialisation writes `detected_emotion = None` and `user_text_for_feedback = ""` only where these keys are absent; every existing key keeps its value |
| Session.Get | app.py:351 | `st.session_state.get(key, default)` yields the stored value when the key is present and the default otherwise |
| Session.InitIdempotent | app.py:321-324 | initialising an initialised session changes nothing, so running it on every rerun is idempotent |
| Session.Submit | app.py:328-339 | a blank submission only sets `detected_emotion` to `None`; a non-blank one sets `detected_emotion` to the lower-cased label and `user_text_for_feedback` to the raw, unstripped text, in one step |
| Session.BlankSubmitIgnoresClassifier | app.py:329-331 | a blank submission gives the same state whatever the classifier is, so it never consults the classifier; it also keeps the saved text |
| Session.SubmitFrame | app.py:328-339 | the button handler changes no key other than `detected_emotion` and `user_text_for_feedback` |
| Session.SubmitKeepsInitialised | app.py:328-339 | after the handler, both keys that are later read as attributes are still present |
| Recommend.LanguagesAvailable | app.py:349 | the available languages are exactly the emotion's language keys, position by position in declaration order; the call raises `KeyError` exactly when the emotion is not in the table |
| Recommend.TargetLanguage | app.py:351 | the selector's target is the stored `music_lang_select` value when present, else "English" |
| Recommend.DefaultLangIndex | app.py:350-353 | the starting index is the first position of `music_lang_select` (default "English") when that language is offered, else 0, and it is a valid index whenever the list is non-empty |
| Recommend.Selectbox | app.py:355-360 | the selector returns one of its options: the user's pick when it is offered, otherwise exactly the option at the starting index, and nothing only when there are no options |
| Recommend.Resolve | app.py:362-374 | three outcomes: songs exactly when the emotion and the language are keys and the list is non-empty (the configured list, in order); "no songs" exactly when the list is empty; "not found" otherwise |
| Recommend.ResolveAvailable | app.py:362-374 | a language from the available list never reaches "not found"; it yields "no songs" exactly when its list is empty |
| Recommend.Recommendations | app.py:345-374 | the section is skipped exactly when `detected_emotion` is falsy; a truthy emotion the table lacks raises `KeyError`; otherwise it shows the emotion's languages, starts at the default index, shows the selector's value for the user's pick and that index, and shows the outcome of the guarded lookup for the detected emotion and that value; "not found" appears only when no language is offered |
| Recommend.NotFoundUnreachable | app.py:373-374 | for a well-formed table the "not found" branch is never reached |
| Shipped.ShippedLanguages | app.py:349 | each of the six shipped emotions offers exactly English, Hindi, Telugu, Kannada; every other label raises `KeyError` |
| Shipped.ShippedResolve | app.py:362-372 | every shipped emotion and language resolves to a list of songs |
| Shipped.ShippedDefaultIsEnglish | app.py:351-353 | without `music_lang_select`, the starting index is 0, which is English |
| Shipped.ShippedRecommendations | app.py:345-374 | when the section is shown for the shipped table, it offers the four languages and lists the configured songs for the chosen one |
| Feedback.RatingTextInjective | app.py:384 | the three rating labels are distinct, so the recorded label identifies the choice |
| Feedback.EmotionCell | app.py:397 | the emotion column is "N/A" when the emotion is falsy; otherwise it is the label in title case, each letter capitalised after an uncased character and lower-cased after a cased one |
| Feedback.FeedbackRow | app.py:263-271 | the appended row has six cells, in order: timestamp, saved text, emotion column, `main_lang_choice` or "N/A", rating label, comment; an absent `user_text_for_feedback`, or else an absent `detected_emotion`, raises `AttributeError` naming that key |
| Feedback.RowAfterSubmit | app.py:395-401 | after a non-blank submission with a non-empty label the row holds the raw text and the title case of the classifier's label; after a blank one its emotion column is "N/A" and it holds the previously saved text |
| Feedback.ShippedEmotionCell | app.py:397 | for each shipped emotion the column is the label with its first letter capitalised, never "N/A" |
| Page.Rerun | app.py:321-401 | a rerun initialises the session, applies the button handler exactly when the button was clicked, and shows the recommendation section of the resulting session, whose detection keys it keeps; a shown choice is stored as `main_lang_choice`, and on a run whose selector shows no choice `main_lang_choice` keeps its presence and value; of the keys the script uses it writes only the two detection keys and `main_lang_choice`; without a click it keeps the detection; a submitted form yields a row exactly when nothing raised, and that row is the six-cell feedback row of the session after the run |
| Page.RunAll | app.py:321-401 | after a non-empty sequence of reruns the session is initialised, and among the keys the script uses, every key other than the two detection keys and `main_lang_choice` keeps its presence and value |
| Page.FeedbackBeforeDetection | app.py:394-401 | feedback sent from a fresh session with no click hides the section and appends the timestamp, an empty text, "N/A" for the emotion, "N/A" for the language, the rating label and the comment |
| Page.TargetStaysEnglish | app.py:351 | no sequence of reruns writes `music_lang_select`, so the selector's target stays "English" |
| Page.BlankResetsToIdle | app.py:329-331 | a blank submission resets the detection and hides the section, whatever was detected before |
| Page.UnknownLabelRaises | app.py:349 | after a non-blank submission, a non-empty label whose lower case is not a shipped emotion raises `KeyError` before the guard at line 362, and no feedback row is produced |
| Page.ShippedAlwaysListsSongs | app.py:362-374 | with the shipped table, a shown section always lists songs in one of the four languages |
| Page.DetectedSection | app.py:345-372 | for a detected shipped emotion the section offers the four languages, starts at English, and keeps an offered pick or falls back to English, listing that language's configured songs |
| Page.JoyScenario | app.py:328-369 | "I feel so energetic and happy today!" labelled "joy" stores the label and the text, selects English, and lists the eleven English joy songs in order |
| Page.JoySection | app.py:345-369 | with "joy" detected and no pick yet, the section offers the four languages, starts at index 0 on English and lists the English joy songs |
| Page.FrenchFallsBackToEnglish | app.py:350-363 | with "joy" detected, a pick of "French" (not offered) falls back to the English joy songs |

## Left out

- Model loading and inference (`load_emotion_model`, the `pipeline` call, `@st.cache_resource`, app.py:12-24 and 334). These are foreign machine-learning calls. The classifier is a parameter `string -> string` that returns the top label.
- Classifier exceptions. app.py does not catch them, and Streamlit reports them, so the model's classifier is total.
- The confidence score (app.py:336, 341). It is floating-point arithmetic used only for display.
- Google Sheets authentication, `open`, `append_row` and their exception handlers (app.py:235-278). These are network calls into a library that is not part of this model. Only the row's contents are modelled.
- `datetime.now().strftime(...)` (app.py:270). The timestamp is an opaque input string.
- All rendering: the page config, title, sidebar, messages, spinner, `st.stop()`, and the text of the three result messages (app.py:282-319, 366-374, 377-392).
- Streamlit widget internals. `Recommend.Selectbox` abstracts the selector as "the user's pick if it is offered, else the option at the starting index". Streamlit's removal of state for widgets not rendered in a run is not modelled: `main_lang_choice` keeps its last value.
- PyStr.Lower: lower-cases ASCII letters only and leaves every other character unchanged, because the labels and catalog keys are ASCII; full Unicode `str.lower` is not modelled.
- PyStr.TitleOfLower: covers `str.title` for ASCII letters only (other characters are uncased and unchanged), for the same reason.
- PyStr.Title: sets the case of ASCII letters only; other characters count as uncased and stay unchanged, because the labels are ASCII.
- Feedback.EmotionCell: inherits the ASCII-only title case of `PyStr.Title`, for the same reason.
- Page.Rerun: the entries Streamlit keeps for the keyed widgets `emotion_text_area`, `get_playlist_button` (a bool), `emotion_accuracy_radio` and `comments_text_area` (app.py:318, 328, 385, 390) are not part of `State`, because the script never reads them back through `st.session_state`; its frame speaks only of the keys the script uses.
- Page.RunAll: the same widget entries are left out of its frame, for the same reason.
- PyStr.Strip: uses Python's whitespace set as a fixed list of code points, rather than a Unicode database lookup.

=== FILE: catalog.dfy ===
/**
 * The static table `EMOTION_PLAYLISTS` of app.py: emotion label -> language
 * -> ordered songs. Both levels are association lists so that the key order
 * Python's dict keeps (and the language selector shows) is part of the model.
 */
module Catalog {
  import opened Wrappers
  import opened PyList

  /** One `{"title": ..., "url": ...}` entry. */
  datatype Song = Song(title: string, url: string)

  /** The songs configured for each language of one emotion, in declaration order. */
  type LanguageTable = seq<(string, seq<Song>)>

  /** Emotion label -> language table, in declaration order. */
  type Playlists = seq<(string, LanguageTable)>

  /** joy / English (app.py line 30). */
  const JoyEnglish: seq<Song> := [
    Song("Happy - Pharrell Williams",
         "https://youtu.be/ZbZSe6N_BXs?si=jsNxUVwIUFrHacsZ"),
    Song("Ed Sheeran - Sapphire",
         "https://youtu.be/JgDNFQ2RaLQ?si=qDSygwPlr5mb-NkZ"),
    Song("Walking on Sunshine - Katrina and the Waves",
         "https://www.youtube.com/results?search_query=Katrina+and+the+Waves+Walking+on+Sunshine"),
    Song("Can't Stop the Feeling! - Justin Timberlake",
         "https://www.youtube.com/results?search_query=Justin+Timberlake+Can%27t+Stop+the+Feeling"),
    Song("Shake It Off - Taylor Swift",
         "https://www.youtube.com/results?search_query=Taylor+Swift+Shake+It+Off"),
    Song("Treasure - Bruno Mars",
         "https://www.youtube.com/results?search_query=Bruno+Mars+Treasure"),
    Song("Levitating - Dua Lipa",
         "https://www.youtube.com/results?search_query=Dua+Lipa+Levitating"),
    Song("Uptown Funk - Mark Ronson ft. Bruno Mars",
         "https://www.youtube.com/results?search_query=Mark+Ronson+Bruno+Mars+Uptown+Funk"),
    Song("I Gotta Feeling - Black Eyed Peas",
         "https://www.youtube.com/results?search_query=Black+Eyed+Peas+I+Gotta+Feeling"),
    Song("Good Life - OneRepublic",
         "https://www.youtube.com/results?search_query=OneRepublic+Good+Life"),
    Song("A Sky Full of Stars - Coldplay",
         "https://www.youtube.com/results?search_query=Coldplay+A+Sky+Full+of+Stars")
  ]

  /** joy / Hindi (app.py line 43). */
  const JoyHindi: seq<Song> := [
    Song("Dil Dhadakne Do",
         "https://www.youtube.com/results?search_query=Dil+Dhadakne+Do+song"),
    Song("Tareefan",
         "https://www.youtube.com/results?search_query=Tareefan+song"),
    Song("Gallan Goodiyaan",
         "https://www.youtube.com/results?search_query=Gallan+Goodiyaan+song"),
    Song("Jai Jai Shivshankar",
         "https://www.youtube.com/results?search_query=Jai+Jai+Shivshankar+song"),
    Song("Badtameez Dil",
         "https://www.youtube.com/results?search_query=Badtameez+Dil+song")
  ]

  /** joy / Telugu (app.py line 50). */
  const JoyTelugu: seq<Song> := [
    Song("Butta Bomma",
         "https://www.youtube.com/results?search_query=Butta+Bomma+song"),
    Song("Ramuloo Ramulaa",
         "https://www.youtube.com/results?search_query=Ramuloo+Ramulaa+song"),
    Song("Samajavaragamana",
         "https://www.youtube.com/results?search_query=Samajavaragamana+song"),
    Song("Sarrainodu",
         "https://www.youtube.com/results?search_query=Sarrainodu+song"),
    Song("Nee Jathaga",
         "https://www.youtube.com/results?search_query=Nee+Jathaga+song")
  ]

  /** joy / Kannada (app.py line 57). */
  const JoyKannada: seq<Song> := [
    Song("Belageddu",
         "https://www.youtube.com/results?search_query=Belageddu+song"),
    Song("Neene Neene",
         "https://www.youtube.com/results?search_query=Neene+Neene+song"),
    Song("Salaam Rocky Bhai",
         "https://www.youtube.com/results?search_query=Salaam+Rocky+Bhai+song"),
    Song("Yajamana",
         "https://www.youtube.com/results?search_query=Yajamana+song"),
    Song("Geleya Nanna Geleya",
         "https://www.youtube.com/results?search_query=Geleya+Nanna+Geleya+song")
  ]

  /** sadness / English (app.py line 66). */
  const SadnessEnglish: seq<Song> := [
    Song("Someone Like You - Adele",
         "https://www.youtube.com/results?search_query=Adele+Someone+Like+You"),
    Song("Too Good at Goodbyes - Sam Smith",
         "https://www.youtube.com/results?search_query=Sam+Smith+Too+Good+at+Goodbyes"),
    Song("Everything I Wanted - Billie Eilish",
         "https://www.youtube.com/results?search_query=Billie+Eilish+Everything+I+Wanted"),
    Song("Someone You Loved - Lewis Capaldi",
         "https://www.youtube.com/results?search_query=Lewis+Capaldi+Someone+You+Loved"),
    Song("Goodbye My Lover - James Blunt",
         "https://www.youtube.com/results?search_query=James+Blunt+Goodbye+My+Lover"),
    Song("Let Her Go - Passenger",
         "https://www.youtube.com/results?search_query=Passenger+Let+Her+Go"),
    Song("Fix You - Coldplay",
         "https://www.youtube.com/results?search_query=Coldplay+Fix+You"),
    Song("Drivers License - Olivia Rodrigo",
         "https://www.youtube.com/results?search_query=Olivia+Rodrigo+Drivers+License"),
    Song("Photograph - Ed Sheeran",
         "https://www.youtube.com/results?search_query=Ed+Sheeran+Photograph"),
    Song("Breathe Me - Sia",
         "https://www.youtube.com/results?search_query=Sia+Breathe+Me")
  ]

  /** sadness / Hindi (app.py line 78). */
  const SadnessHindi: seq<Song> := [
    Song("Kabira",
         "https://www.youtube.com/results?search_query=Kabira+song"),
    Song("Channa Mereya",
         "https://www.youtube.com/results?search_query=Channa+Mereya+song"),
    Song("Tujhe Kitna Chahne Lage",
         "https://www.youtube.com/results?search_query=Tujhe+Kitna+Chahne+Lage+song"),
    Song("Agar Tum Saath Ho",
         "https://www.youtube.com/results?search_query=Agar+Tum+Saath+Ho+song"),
    Song("Main Yahaan Hoon",
         "https://www.youtube.com/results?search_query=Main+Yahaan+Hoon+song")
  ]

  /** sadness / Telugu (app.py line 85). */
  const SadnessTelugu: seq<Song> := [
    Song("Nuvve Nuvve",
         "https://www.youtube.com/results?search_query=Nuvve+Nuvve+song"),
    Song("Yeduta Nilichindi",
         "https://www.youtube.com/results?search_query=Yeduta+Nilichindi+song"),
    Song("Nee Kallalona",
         "https://www.youtube.com/results?search_query=Nee+Kallalona+song"),
    Song("Oohalu Gusagusalade",
         "https://www.youtube.com/results?search_query=Oohalu+Gusagusalade+song"),
    Song("Mounamgaane",
         "https://www.youtube.com/results?search_query=Mounamgaane+song")
  ]

  /** sadness / Kannada (app.py line 92). */
  const SadnessKannada: seq<Song> := [
    Song("Ninnindale",
         "https://www.youtube.com/results?search_query=Ninnindale+song"),
    Song("Ee Sanje",
         "https://www.youtube.com/results?search_query=Ee+Sanje+song"),
    Song("Kanasalu Neene",
         "https://www.youtube.com/results?search_query=Kanasalu+Neene+song"),
    Song("Neeralli Sanna",
         "https://www.youtube.com/results?search_query=Neeralli+Sanna+song"),
    Song("Usire Usire",
         "https://www.youtube.com/results?search_query=Usire+Usire+song")
  ]

  /** anger / English (app.py line 101). */
  const AngerEnglish: seq<Song> := [
    Song("Numb - Linkin Park",
         "https://www.youtube.com/results?search_query=Linkin+Park+Numb"),
    Song("Lose Yourself - Eminem",
         "https://www.youtube.com/results?search_query=Eminem+Lose+Yourself"),
    Song("Believer - Imagine Dragons",
         "https://www.youtube.com/results?search_query=Imagine+Dragons+Believer"),
    Song("Boulevard of Broken Dreams - Green Day",
         "https://www.youtube.com/results?search_query=Green+Day+Boulevard+of+Broken+Dreams"),
    Song("Smells Like Teen Spirit - Nirvana",
         "https://www.youtube.com/results?search_query=Nirvana+Smells+Like+Teen+Spirit"),
    Song("Disturbia - Rihanna",
         "https://www.youtube.com/results?search_query=Rihanna+Disturbia"),
    Song("You Should See Me in a Crown - Billie Eilish",
         "https://www.youtube.com/results?search_query=Billie+Eilish+You+Should+See+Me+in+a+Crown"),
    Song("Bring Me to Life - Evanescence",
         "https://www.youtube.com/results?search_query=Evanescence+Bring+Me+to+Life"),
    Song("Sorry Not Sorry - Demi Lovato",
         "https://www.youtube.com/results?search_query=Demi+Lovato+Sorry+Not+Sorry"),
    Song("I'm Not Okay (I Promise) - My Chemical Romance",
         "https://www.youtube.com/results?search_query=My+Chemical+Romance+I%27m+Not+Okay")
  ]

  /** anger / Hindi (app.py line 113). */
  const AngerHindi: seq<Song> := [
    Song("Ranjha Ranjha",
         "https://www.youtube.com/results?search_query=Ranjha+Ranjha+song"),
    Song("Bekhayali",
         "https://www.youtube.com/results?search_query=Bekhayali+song"),
    Song("Gali Gali",
         "https://www.youtube.com/results?search_query=Gali+Gali+song"),
    Song("Zinda",
         "https://www.youtube.com/results?search_query=Zinda+song"),
    Song("Kaala Chashma (from Baar Baar Dekho)",
         "https://www.youtube.com/results?search_query=Kaala+Chashma+song")
  ]

  /** anger / Telugu (app.py line 120). */
  const AngerTelugu: seq<Song> := [
    Song("Bad Boy - Businessman",
         "https://www.youtube.com/results?search_query=Bad+Boy+Businessman+song"),
    Song("Top Lesi Poddi - Iddarammayilatho",
         "https://www.youtube.com/results?search_query=Top+Lesi+Poddi+Iddarammayilatho+song"),
    Song("Devudaa Devudaa - Gabbar Singh",
         "https://www.youtube.com/results?search_query=Devudaa+Devudaa+Gabbar+Singh+song"),
    Song("Blockbuster - Sarrainodu",
         "https://www.youtube.com/results?search_query=Blockbuster+Sarrainodu+song")
  ]

  /** anger / Kannada (app.py line 126). */
  const AngerKannada: seq<Song> := [
    Song("KGF Theme Song",
         "https://www.youtube.com/results?search_query=KGF+Theme+Song"),
    Song("Tagaru Banthu Tagaru",
         "https://www.youtube.com/results?search_query=Tagaru+Banthu+Tagaru+song"),
    Song("Chuttu Chuttu - Raambo 2",
         "https://www.youtube.com/results?search_query=Chuttu+Chuttu+Raambo+2+song"),
    Song("Dheera Dheera - K.G.F: Chapter 1",
         "https://www.youtube.com/results?search_query=Dheera+Dheera+K.G.F+Chapter+1+song")
  ]

  /** fear / English (app.py line 134). */
  const FearEnglish: seq<Song> := [
    Song("Creep - Radiohead",
         "https://www.youtube.com/results?search_query=Radiohead+Creep"),
    Song("Jealous - Labrinth",
         "https://www.youtube.com/results?search_query=Labrinth+Jealous"),
    Song("Elastic Heart - Sia",
         "https://www.youtube.com/results?search_query=Sia+Elastic+Heart"),
    Song("Take Me to Church - Hozier",
         "https://www.youtube.com/results?search_query=Hozier+Take+Me+to+Church"),
    Song("Demons - Imagine Dragons",
         "https://www.youtube.com/results?search_query=Imagine+Dragons+Demons"),
    Song("Runaway - Aurora",
         "https://www.youtube.com/results?search_query=Aurora+Runaway"),
    Song("Shake It Out - Florence + The Machine",
         "https://www.youtube.com/results?search_query=Florence+The+Machine+Shake+It+Out"),
    Song("When the Party\U{2019}s Over - Billie Eilish",
         "https://www.youtube.com/results?search_query=Billie+Eilish+When+the+Party%E2%80%99s+Over"),
    Song("Liability - Lorde",
         "https://www.youtube.com/results?search_query=Lorde+Liability"),
    Song("Somewhere Only We Know - Keane",
         "https://www.youtube.com/results?search_query=Keane+Somewhere+Only+We+Know")
  ]

  /** fear / Hindi (app.py line 146). */
  const FearHindi: seq<Song> := [
    Song("Aashayein",
         "https://www.youtube.com/results?search_query=Aashayein+song"),
    Song("Bandheya",
         "https://www.youtube.com/results?search_query=Bandheya+song"),
    Song("Zinda Hoon Yaar",
         "https://www.youtube.com/results?search_query=Zinda+Hoon+Yaar+song"),
    Song("Tu Hi Meri Shab Hai",
         "https://www.youtube.com/results?search_query=Tu+Hi+Meri+Shab+Hai+song"),
    Song("Darr (Title Song)",
         "https://www.youtube.com/results?search_query=Darr+Title+Song")
  ]

  /** fear / Telugu (app.py line 153). */
  const FearTelugu: seq<Song> := [
    Song("Gundello Emundo - Pelli Sandadi",
         "https://www.youtube.com/results?search_query=Gundello+Emundo+Pelli+Sandadi+song"),
    Song("Nijame Ne Chebutunna - Kothabangarulokam",
         "https://www.youtube.com/results?search_query=Nijame+Ne+Chebutunna+Kothabangarulokam+song"),
    Song("Oka Laila Kosam - Oka Laila Kosam",
         "https://www.youtube.com/results?search_query=Oka+Laila+Kosam+song"),
    Song("Manase Manase - Vasantham",
         "https://www.youtube.com/results?search_query=Manase+Manase+Vasantham+song")
  ]

  /** fear / Kannada (app.py line 159). */
  const FearKannada: seq<Song> := [
    Song("Gooli - Gooli",
         "https://www.youtube.com/results?search_query=Gooli+song"),
    Song("Jotheyali - Ninnindale",
         "https://www.youtube.com/results?search_query=Jotheyali+Ninnindale+song"),
    Song("Nee Bandu Nintaaga - Gajakesari",
         "https://www.youtube.com/results?search_query=Nee+Bandu+Nintaaga+Gajakesari+song"),
    Song("Kariya I Love You - Kariya",
         "https://www.youtube.com/results?search_query=Kariya+I+Love+You+song")
  ]

  /** love / English (app.py line 167). */
  const LoveEnglish: seq<Song> := [
    Song("Perfect - Ed Sheeran",
         "https://www.youtube.com/results?search_query=Ed+Sheeran+Perfect"),
    Song("All of Me - John Legend",
         "https://www.youtube.com/results?search_query=John+Legend+All+of+Me"),
    Song("Lover - Taylor Swift",
         "https://www.youtube.com/results?search_query=Taylor+Swift+Lover"),
    Song("Just the Way You Are - Bruno Mars",
         "https://www.youtube.com/results?search_query=Bruno+Mars+Just+the+Way+You+Are"),
    Song("Love Me Like You Do - Ellie Goulding",
         "https://www.youtube.com/results?search_query=Ellie+Goulding+Love+Me+Like+You+Do"),
    Song("Say You Won\U{2019}t Let Go - James Arthur",
         "https://www.youtube.com/results?search_query=James+Arthur+Say+You+Won%E2%80%99t+Let+Go"),
    Song("Earned It - The Weeknd",
         "https://www.youtube.com/results?search_query=The+Weeknd+Earned+It"),
    Song("Young and Beautiful - Lana Del Rey",
         "https://www.youtube.com/results?search_query=Lana+Del+Rey+Young+and+Beautiful"),
    Song("A Thousand Years - Christina Perri",
         "https://www.youtube.com/results?search_query=Christina+Perri+A+Thousand+Years"),
    Song("Halo - Beyonc\U{E9}",
         "https://www.youtube.com/results?search_query=Beyonc%C3%A9+Halo")
  ]

  /** love / Hindi (app.py line 179). */
  const LoveHindi: seq<Song> := [
    Song("Tere Mere Sapne",
         "https://www.youtube.com/results?search_query=Tere+Mere+Sapne+song"),
    Song("Raabta",
         "https://www.youtube.com/results?search_query=Raabta+song"),
    Song("Tum Hi Ho",
         "https://www.youtube.com/results?search_query=Tum+Hi+Ho+song"),
    Song("Dil Diyan Gallan",
         "https://www.youtube.com/results?search_query=Dil+Diyan+Gallan+song"),
    Song("Pehla Nasha",
         "https://www.youtube.com/results?search_query=Pehla+Nasha+song")
  ]

  /** love / Telugu (app.py line 186). */
  const LoveTelugu: seq<Song> := [
    Song("Nee Choopule - Endukante Premanta",
         "https://www.youtube.com/results?search_query=Nee+Choopule+Endukante+Premanta+song"),
    Song("Yeto Vellipoyindhi Manasu - Yeto Vellipoyindhi Manasu",
         "https://www.youtube.com/results?search_query=Yeto+Vellipoyindhi+Manasu+song"),
    Song("Ninnu Kori - Ninnu Kori",
         "https://www.youtube.com/results?search_query=Ninnu+Kori+song"),
    Song("Priyatama Priyatama - Majili",
         "https://www.youtube.com/results?search_query=Priyatama+Priyatama+Majili+song")
  ]

  /** love / Kannada (app.py line 192). */
  const LoveKannada: seq<Song> := [
    Song("Preethi Maayavi - Mungaru Male",
         "https://www.youtube.com/results?search_query=Preethi+Maayavi+Mungaru+Male+song"),
    Song("Neene Neene - Akash",
         "https://www.youtube.com/results?search_query=Neene+Neene+Akash+song"),
    Song("Usire Usire - Huccha",
         "https://www.youtube.com/results?search_query=Usire+Usire+Huccha+song"),
    Song("Nee Sanihake - Chakravyuha",
         "https://www.youtube.com/results?search_query=Nee+Sanihake+Chakravyuha+song")
  ]

  /** surprise / English (app.py line 200). */
  const SurpriseEnglish: seq<Song> := [
    Song("Paradise - Coldplay",
         "https://www.youtube.com/results?search_query=Coldplay+Paradise"),
    Song("Fireflies - Owl City",
         "https://www.youtube.com/results?search_query=Owl+City+Fireflies"),
    Song("Counting Stars - OneRepublic",
         "https://www.youtube.com/results?search_query=OneRepublic+Counting+Stars"),
    Song("On Top of the World - Imagine Dragons",
         "https://www.youtube.com/results?search_query=Imagine+Dragons+On+Top+of+the+World"),
    Song("Ocean Eyes - Billie Eilish",
         "https://www.youtube.com/results?search_query=Billie+Eilish+Ocean+Eyes"),
    Song("Cosmic Love - Florence + The Machine",
         "https://www.youtube.com/results?search_query=Florence+The+Machine+Cosmic+Love"),
    Song("Midnight City - M83",
         "https://www.youtube.com/results?search_query=M83+Midnight+City"),
    Song("Castle on the Hill - Ed Sheeran",
         "https://www.youtube.com/results?search_query=Ed+Sheeran+Castle+on+the+Hill"),
    Song("Wish You Were Here - Pink Floyd",
         "https://www.youtube.com/results?search_query=Pink+Floyd+Wish+You+Were+Here"),
    Song("Youth - Troye Sivan",
         "https://www.youtube.com/results?search_query=Troye+Sivan+Youth")
  ]

  /** surprise / Hindi (app.py line 212). */
  const SurpriseHindi: seq<Song> := [
    Song("Chaiyya Chaiyya",
         "https://www.youtube.com/results?search_query=Chaiyya+Chaiyya+song"),
    Song("Kala Chashma",
         "https://www.youtube.com/results?search_query=Kala+Chashma+song"),
    Song("London Thumakda",
         "https://www.youtube.com/results?search_query=London+Thumakda+song"),
    Song("Balam Pichkari",
         "https://www.youtube.com/results?search_query=Balam+Pichkari+song"),
    Song("Ghungroo",
         "https://www.youtube.com/results?search_query=Ghungroo+song")
  ]

  /** surprise / Telugu (app.py line 219). */
  const SurpriseTelugu: seq<Song> := [
    Song("Ringa Ringa - Arya 2",
         "https://www.youtube.com/results?search_query=Ringa+Ringa+Arya+2+song"),
    Song("Pakka Local - Janatha Garage",
         "https://www.youtube.com/results?search_query=Pakka+Local+Janatha+Garage+song"),
    Song("Ammadu Let's Do Kummudu - Khaidi No. 150",
         "https://www.youtube.com/results?search_query=Ammadu+Let%27s+Do+Kummudu+Khaidi+No.+150+song"),
    Song("Dimaak Kharaab - Ismart Shankar",
         "https://www.youtube.com/results?search_query=Dimaak+Kharaab+Ismart+\U{936}\U{902}\U{915}\U{930}+song")
  ]

  /** surprise / Kannada (app.py line 225). */
  const SurpriseKannada: seq<Song> := [
    Song("Bombat - Raambo 2",
         "https://www.youtube.com/results?search_query=Bombat+Raambo+2+song"),
    Song("Karabuu - Pogaru",
         "https://www.youtube.com/results?search_query=Karabuu+Pogaru+song"),
    Song("Dostha Kano - Chakravyuha",
         "https://www.youtube.com/results?search_query=Dostha+Kano+Chakravyuha+song"),
    Song("Appu Dance - Appu",
         "https://www.youtube.com/results?search_query=Appu+Dance+Appu+song")
  ]

  /** The whole table, emotions and languages in the order app.py declares them. */
  const EmotionPlaylists: Playlists := [
    ("joy", [("English", JoyEnglish), ("Hindi", JoyHindi), ("Telugu", JoyTelugu), ("Kannada", JoyKannada)]),
    ("sadness", [("English", SadnessEnglish), ("Hindi", SadnessHindi), ("Telugu", SadnessTelugu), ("Kannada", SadnessKannada)]),
    ("anger", [("English", AngerEnglish), ("Hindi", AngerHindi), ("Telugu", AngerTelugu), ("Kannada", AngerKannada)]),
    ("fear", [("English", FearEnglish), ("Hindi", FearHindi), ("Telugu", FearTelugu), ("Kannada", FearKannada)]),
    ("love", [("English", LoveEnglish), ("Hindi", LoveHindi), ("Telugu", LoveTelugu), ("Kannada", LoveKannada)]),
    ("surprise", [("English", SurpriseEnglish), ("Hindi", SurpriseHindi), ("Telugu", SurpriseTelugu), ("Kannada", SurpriseKannada)])
  ]
  /** The emotion labels of the table, in declaration order. */
  const Emotions: seq<string> := ["joy", "sadness", "anger", "fear", "love", "surprise"]

  /** The languages every emotion offers, in declaration order. */
  const Languages: seq<string> := ["English", "Hindi", "Telugu", "Kannada"]

  /** Every entry has a non-empty title and a non-empty link. */
  predicate SongsWellFormed(songs: seq<Song>) {
    forall k :: 0 <= k < |songs| ==> songs[k].title != "" && songs[k].url != ""
  }

  /**
   * The shape the app relies on: no repeated emotion, every emotion offers
   * at least one language and no language twice, and every configured
   * entry is well formed.
   */
  predicate WellFormed(c: Playlists) {
    && DistinctKeys(c)
    && (forall i :: 0 <= i < |c| ==> |c[i].1| > 0 && DistinctKeys(c[i].1))
    && (forall i, j :: 0 <= i < |c| && 0 <= j < |c[i].1| ==> SongsWellFormed(c[i].1[j].1))
  }

  /** The shipped table is well formed. */
  lemma CatalogWellFormed()
    ensures WellFormed(EmotionPlaylists)
  {
    JoyListsWellFormed();
    SadnessListsWellFormed();
    AngerListsWellFormed();
    FearListsWellFormed();
    LoveListsWellFormed();
    SurpriseListsWellFormed();
    forall i, j | 0 <= i < |EmotionPlaylists| && 0 <= j < |EmotionPlaylists[i].1|
      ensures SongsWellFormed(EmotionPlaylists[i].1[j].1)
    {
      assert EmotionPlaylists[i].1[j].1 in AllLists;
    }
  }

  /** Every song list of the table. */
  const AllLists: seq<seq<Song>> := [
    JoyEnglish, JoyHindi, JoyTelugu, JoyKannada,
    SadnessEnglish, SadnessHindi, SadnessTelugu, SadnessKannada,
    AngerEnglish, AngerHindi, AngerTelugu, AngerKannada,
    FearEnglish, FearHindi, FearTelugu, FearKannada,
    LoveEnglish, LoveHindi, LoveTelugu, LoveKannada,
    SurpriseEnglish, SurpriseHindi, SurpriseTelugu, SurpriseKannada
  ]

  lemma JoyListsWellFormed()
    ensures SongsWellFormed(JoyEnglish) && SongsWellFormed(JoyHindi) && SongsWellFormed(JoyTelugu) && SongsWellFormed(JoyKannada)
  {
  }

  lemma SadnessListsWellFormed()
    ensures SongsWellFormed(SadnessEnglish) && SongsWellFormed(SadnessHindi) && SongsWellFormed(SadnessTelugu) && SongsWellFormed(SadnessKannada)
  {
  }

  lemma AngerListsWellFormed()
    ensures SongsWellFormed(AngerEnglish) && SongsWellFormed(AngerHindi) && SongsWellFormed(AngerTelugu) && SongsWellFormed(AngerKannada)
  {
  }

  lemma FearListsWellFormed()
    ensures SongsWellFormed(FearEnglish) && SongsWellFormed(FearHindi) && SongsWellFormed(FearTelugu) && SongsWellFormed(FearKannada)
  {
  }

  lemma LoveListsWellFormed()
    ensures SongsWellFormed(LoveEnglish) && SongsWellFormed(LoveHindi) && SongsWellFormed(LoveTelugu) && SongsWellFormed(LoveKannada)
  {
  }

  lemma SurpriseListsWellFormed()
    ensures SongsWellFormed(SurpriseEnglish) && SongsWellFormed(SurpriseHindi) && SongsWellFormed(SurpriseTelugu) && SongsWellFormed(SurpriseKannada)
  {
  }

  /**
   * The keys of the shipped table: six emotions, each offering English,
   * Hindi, Telugu and Kannada in that order with a non-empty list for each.
   */
  lemma CatalogShape()
    ensures Keys(EmotionPlaylists) == Emotions
    ensures forall i :: 0 <= i < |EmotionPlaylists| ==> Keys(EmotionPlaylists[i].1) == Languages
    ensures forall i, j :: 0 <= i < |EmotionPlaylists| && 0 <= j < |EmotionPlaylists[i].1| ==> |EmotionPlaylists[i].1[j].1| > 0
  {
    assert Keys(EmotionPlaylists)[..] == Emotions;
  }

  /** joy / English holds the eleven songs of app.py lines 31-41, in that order. */
  lemma JoyEnglishConfigured()
    ensures Lookup(EmotionPlaylists, "joy") == Some(EmotionPlaylists[0].1)
    ensures Lookup(EmotionPlaylists[0].1, "English") == Some(JoyEnglish)
    ensures |JoyEnglish| == 11
    ensures JoyEnglish[0].title == "Happy - Pharrell Williams"
    ensures JoyEnglish[10].title == "A Sky Full of Stars - Coldplay"
  {
  }
}

=== FILE: errors.dfy ===
/** The Python exceptions the modelled code can raise. */
module Errors {

  datatype PyError =
    | KeyError(key: string)          // `d[key]` on a missing key
    | AttributeError(name: string)   // `st.session_state.name` on a missing key
}

=== FILE: feedback.dfy ===
/** The row the feedback form appends to the spreadsheet. */
module Feedback {
  import opened Wrappers
  import opened Errors
  import PyStr
  import opened Session
  import Catalog

  /** The three choices of the "Was EmoSic helpful?" radio. */
  datatype Rating = LovedIt | ItWasOkay | NeedsWork

  /** The radio label, which is what the row records. */
  function RatingText(r: Rating): string {
    match r
    case LovedIt => "\U{1F60D} Loved it!"
    case ItWasOkay => "\U{1F642} It was okay"
    case NeedsWork => "\U{1F615} Needs work"
  }

  /** The three labels are different, so the recorded text identifies the choice. */
  lemma RatingTextInjective(a: Rating, b: Rating)
    ensures RatingText(a) == RatingText(b) <==> a == b
  {
  }

  const NotAvailable: string := "N/A"

  /** The emotion column: the title-cased emotion when it is truthy, "N/A" otherwise. */
  function EmotionCell(v: Value): (cell: string)
    ensures Truthy(v) ==> |cell| == |v.s|
    ensures Truthy(v) ==> forall i :: 0 <= i < |v.s| ==>
              cell[i] == (if i > 0 && PyStr.IsCased(v.s[i - 1]) then PyStr.LowerChar(v.s[i]) else PyStr.UpperChar(v.s[i]))
    ensures !Truthy(v) ==> cell == NotAvailable
  {
    if Truthy(v) then PyStr.Title(v.s) else NotAvailable
  }

  /**
   * The six cells of the appended row, in order: timestamp, the text the
   * emotion was detected from, the emotion column, the selected language (or
   * "N/A" when the selector never ran), the rating label and the comment.
   * Reading the two session attributes raises `AttributeError` when absent.
   */
  function FeedbackRow(timestamp: string, st: State, rating: Rating, comment: string): (r: Result<seq<Value>, PyError>)
    ensures r.Success? <==> Initialised(st)
    ensures UserTextKey !in st ==> r == Failure(AttributeError(UserTextKey))
    ensures UserTextKey in st && DetectedEmotionKey !in st ==> r == Failure(AttributeError(DetectedEmotionKey))
    ensures r.Success? ==> |r.value| == 6
    ensures r.Success? ==> r.value[0] == Str(timestamp) && r.value[1] == st[UserTextKey]
    ensures r.Success? ==> r.value[2] == Str(EmotionCell(st[DetectedEmotionKey]))
    ensures r.Success? ==> (MainLangChoiceKey in st ==> r.value[3] == st[MainLangChoiceKey])
    ensures r.Success? ==> (MainLangChoiceKey !in st ==> r.value[3] == Str(NotAvailable))
    ensures r.Success? ==> r.value[4] == Str(RatingText(rating)) && r.value[5] == Str(comment)
  {
    if UserTextKey !in st then Failure(AttributeError(UserTextKey))
    else if DetectedEmotionKey !in st then Failure(AttributeError(DetectedEmotionKey))
    else
      var emotion := EmotionCell(st[DetectedEmotionKey]);
      var language := Get(st, MainLangChoiceKey, Str(NotAvailable));
      Success([Str(timestamp), st[UserTextKey], Str(emotion), language, Str(RatingText(rating)), Str(comment)])
  }

  /**
   * After a non-blank submission the row records the raw text and the
   * title case of the classifier's label as it came (lower-casing it first
   * makes no difference); after a blank one the emotion column is "N/A".
   */
  lemma RowAfterSubmit(timestamp: string, st: State, text: string, classify: string -> string,
                       rating: Rating, comment: string)
    requires Initialised(st)
    ensures var row := FeedbackRow(timestamp, Submit(st, text, classify), rating, comment);
            && row.Success?
            && (PyStr.IsBlank(text) ==> row.value[2] == Str(NotAvailable) && row.value[1] == st[UserTextKey])
            && (!PyStr.IsBlank(text) && classify(text) != "" ==>
                  row.value[1] == Str(text) && row.value[2] == Str(PyStr.Title(classify(text))))
  {
    PyStr.TitleOfLower(classify(text));
  }

  /**
   * For every emotion of the shipped table the emotion column is the label
   * with its first letter capitalised, never "N/A".
   */
  lemma ShippedEmotionCell(emotion: string)
    requires emotion in Catalog.Emotions
    ensures |emotion| > 0
    ensures EmotionCell(Str(emotion)) == [PyStr.UpperChar(emotion[0])] + emotion[1..]
    ensures EmotionCell(Str(emotion)) != NotAvailable
  {
    assert forall i :: 0 <= i < |emotion| ==> PyStr.IsLower(emotion[i]);
    PyStr.TitleOfLowerWord(emotion);
  }
}

=== FILE: page.dfy ===
/**
 * One rerun of the whole script, top to bottom: initialise the session,
 * handle the button, render the recommendation section (whose selector
 * writes `main_lang_choice`), and build the feedback row if the form was
 * submitted. An exception in the recommendation section ends the run before
 * the feedback form.
 */
module Page {
  import opened Wrappers
  import opened Errors
  import opened PyList
  import PyStr
  import opened Catalog
  import opened Session
  import opened Recommend
  import opened Feedback
  import Shipped

  /** The feedback form's inputs on the run that submits it. */
  datatype FeedbackForm = FeedbackForm(rating: Rating, comment: string)

  /**
   * What the browser sends with this rerun: the text area's content,
   * whether the button was clicked, the language selector's current value
   * (`Some` on every rerun after the selector was first rendered, since a
   * keyed widget keeps its value; `None` before that), the submitted
   * feedback form (if any), and the clock reading.
   */
  datatype Event = Event(text: string, clicked: bool, languagePick: Option<string>,
                         feedback: Option<FeedbackForm>, timestamp: string)

  /** The session after the run, the recommendation section, and the row sent to the spreadsheet. */
  datatype Outcome = Outcome(state: State, display: Display, row: Option<seq<Value>>)

  function Rerun(c: Playlists, st: State, ev: Event, classify: string -> string): (o: Outcome)
    ensures Initialised(o.state)
    ensures forall k :: k !in {DetectedEmotionKey, UserTextKey, MainLangChoiceKey} ==>
              (k in o.state <==> k in st) && (k in st ==> o.state[k] == st[k])
    ensures !ev.clicked && DetectedEmotionKey in st ==> o.state[DetectedEmotionKey] == st[DetectedEmotionKey]
    ensures !ev.clicked && UserTextKey in st ==> o.state[UserTextKey] == st[UserTextKey]
    ensures var st2 := if ev.clicked then Submit(Init(st), ev.text, classify) else Init(st);
            && o.display == Recommendations(c, st2, ev.languagePick)
            && Get(o.state, DetectedEmotionKey, PyNone) == st2[DetectedEmotionKey]
            && Get(o.state, UserTextKey, PyNone) == st2[UserTextKey]
    ensures o.display.Shown? && o.display.choice.Some? ==>
              Get(o.state, MainLangChoiceKey, PyNone) == Str(o.display.choice.value)
    ensures !(o.display.Shown? && o.display.choice.Some?) ==>
              (MainLangChoiceKey in o.state <==> MainLangChoiceKey in st) &&
              (MainLangChoiceKey in st ==> o.state[MainLangChoiceKey] == st[MainLangChoiceKey])
    ensures o.row.Some? ==> ev.feedback.Some? && |o.row.value| == 6 && !o.display.Crashed?
    ensures o.display.Crashed? ==> o.row.None?
    ensures ev.feedback.Some? && !o.display.Crashed? ==>
              o.row == Some(FeedbackRow(ev.timestamp, o.state, ev.feedback.value.rating, ev.feedback.value.comment).value)
  {
    var st1 := Init(st);
    var st2 := if ev.clicked then Submit(st1, ev.text, classify) else st1;
    var d := Recommendations(c, st2, ev.languagePick);
    var st3 := if d.Shown? && d.choice.Some? then st2[MainLangChoiceKey := Str(d.choice.value)] else st2;
    if d.Crashed? || ev.feedback.None? then
      Outcome(st3, d, None)
    else
      var form := ev.feedback.value;
      Outcome(st3, d, Some(FeedbackRow(ev.timestamp, st3, form.rating, form.comment).value))
  }

  /** The session after a sequence of reruns. */
  function RunAll(c: Playlists, st: State, evs: seq<Event>, classify: string -> string): (r: State)
    ensures evs != [] ==> Initialised(r)
    ensures forall k :: k !in {DetectedEmotionKey, UserTextKey, MainLangChoiceKey} ==>
              (k in r <==> k in st) && (k in st ==> r[k] == st[k])
    decreases |evs|
  {
    if evs == [] then st else RunAll(c, Rerun(c, st, evs[0], classify).state, evs[1..], classify)
  }

  /**
   * No rerun ever writes `music_lang_select`, so a session that starts
   * without it keeps the selector's target at "English" forever.
   */
  lemma {:induction false} TargetStaysEnglish(c: Playlists, st: State, evs: seq<Event>, classify: string -> string)
    requires MusicLangSelectKey !in st
    ensures MusicLangSelectKey !in RunAll(c, st, evs, classify)
    ensures TargetLanguage(RunAll(c, st, evs, classify)) == Str("English")
    decreases |evs|
  {
    if evs != [] {
      var st' := Rerun(c, st, evs[0], classify).state;
      assert MusicLangSelectKey !in {DetectedEmotionKey, UserTextKey, MainLangChoiceKey};
      TargetStaysEnglish(c, st', evs[1..], classify);
    }
  }

  /**
   * Feedback sent from a fresh session before anything was detected: the
   * section is hidden and the selector never ran, so both the emotion cell
   * and the language cell are "N/A", and the saved text is empty.
   */
  lemma FeedbackBeforeDetection(c: Playlists, ev: Event, classify: string -> string)
    requires !ev.clicked && ev.feedback.Some?
    ensures var o := Rerun(c, map[], ev, classify);
            && o.display == Hidden
            && o.row == Some([Str(ev.timestamp), Str(""), Str(NotAvailable), Str(NotAvailable),
                              Str(RatingText(ev.feedback.value.rating)), Str(ev.feedback.value.comment)])
  {
  }

  /** Submitting blank text returns the session to the idle state: the section is hidden, whatever was detected before. */
  lemma BlankResetsToIdle(c: Playlists, st: State, ev: Event, classify: string -> string)
    requires ev.clicked && PyStr.IsBlank(ev.text)
    ensures Rerun(c, st, ev, classify).state[DetectedEmotionKey] == PyNone
    ensures Rerun(c, st, ev, classify).display == Hidden
  {
  }

  /**
   * A classifier label whose lower case is not a shipped emotion makes the
   * run raise `KeyError` while listing languages, so the guard that would
   * show "no songs for this emotion" is never reached and the feedback form
   * is not rendered.
   */
  lemma UnknownLabelRaises(st: State, ev: Event, classify: string -> string)
    requires ev.clicked && !PyStr.IsBlank(ev.text)
    requires PyStr.Lower(classify(ev.text)) != ""
    requires PyStr.Lower(classify(ev.text)) !in Emotions
    ensures Rerun(EmotionPlaylists, st, ev, classify).display == Crashed(KeyError(PyStr.Lower(classify(ev.text))))
    ensures Rerun(EmotionPlaylists, st, ev, classify).row.None?
  {
    Shipped.ShippedLanguages(PyStr.Lower(classify(ev.text)));
  }

  /**
   * With the shipped table, whenever the section is shown it lists songs:
   * the "not found" and the "no songs" branches are both unreachable, and the
   * language shown is one of the four configured ones.
   */
  lemma ShippedAlwaysListsSongs(st: State, ev: Event, classify: string -> string)
    ensures var d := Rerun(EmotionPlaylists, st, ev, classify).display;
            d.Shown? ==> d.outcome.Songs? && d.choice.Some? && d.choice.value in Languages
  {
    var st1 := Init(st);
    var st2 := if ev.clicked then Submit(st1, ev.text, classify) else st1;
    assert Rerun(EmotionPlaylists, st, ev, classify).display == Recommendations(EmotionPlaylists, st2, ev.languagePick);
    Shipped.ShippedRecommendations(st2, ev.languagePick);
  }

  /** The section for a detected emotion `emotion` and a language pick on the shipped table. */
  lemma DetectedSection(st: State, emotion: string, ev: Event, classify: string -> string)
    requires st == Init(st) && st[DetectedEmotionKey] == Str(emotion) && !ev.clicked
    requires emotion in Emotions && MusicLangSelectKey !in st
    ensures var d := Rerun(EmotionPlaylists, st, ev, classify).display;
            && d.Shown? && d.languages == Languages && d.defaultIndex == 0
            && (ev.languagePick.Some? && ev.languagePick.value in Languages ==> d.choice == ev.languagePick)
            && (ev.languagePick.None? || ev.languagePick.value !in Languages ==> d.choice == Some("English"))
            && d.outcome == Songs(Configured(EmotionPlaylists, emotion, d.choice.value).value)
  {
    Shipped.ShippedLanguages(emotion);
    Shipped.ShippedDefaultIsEnglish(st);
    var d := Rerun(EmotionPlaylists, st, ev, classify).display;
    Shipped.ShippedResolve(emotion, d.choice.value);
  }

  /**
   * "I feel so energetic and happy today!" classified as "joy", with no
   * language picked yet, shows the eleven English joy songs in order.
   */
  lemma JoyScenario(classify: string -> string)
    requires classify("I feel so energetic and happy today!") == "joy"
    ensures var ev := Event("I feel so energetic and happy today!", true, None, None, "");
            var o := Rerun(EmotionPlaylists, map[], ev, classify);
            && o.state[DetectedEmotionKey] == Str("joy")
            && o.state[UserTextKey] == Str("I feel so energetic and happy today!")
            && Get(o.state, MainLangChoiceKey, PyNone) == Str("English")
            && o.display == Shown(Languages, 0, Some("English"), Songs(JoyEnglish))
            && |JoyEnglish| == 11
  {
    var text := "I feel so energetic and happy today!";
    var ev := Event(text, true, None, None, "");
    assert !PyStr.IsSpace(text[0]);
    assert PyStr.Lower("joy") == "joy";
    var st1 := Init(map[]);
    var st2 := Submit(st1, text, classify);
    assert st2 == st1[DetectedEmotionKey := Str("joy")][UserTextKey := Str(text)];
    assert MusicLangSelectKey !in st2;
    JoySection(st2);
    var d := Recommendations(EmotionPlaylists, st2, None);
    assert Rerun(EmotionPlaylists, map[], ev, classify) ==
           Outcome(st2[MainLangChoiceKey := Str("English")], d, None);
  }

  /** With "joy" detected and no pick yet, the section starts on English and lists the English joy songs. */
  lemma JoySection(st: State)
    requires DetectedEmotionKey in st && st[DetectedEmotionKey] == Str("joy") && MusicLangSelectKey !in st
    ensures Recommendations(EmotionPlaylists, st, None) == Shown(Languages, 0, Some("English"), Songs(JoyEnglish))
  {
    Shipped.ShippedLanguages("joy");
    Shipped.ShippedDefaultIsEnglish(st);
    assert DefaultLangIndex(Languages, st) == 0;
    assert Selectbox(Languages, 0, None) == Some("English");
    JoyEnglishConfigured();
    assert Configured(EmotionPlaylists, "joy", "English") == Some(JoyEnglish);
  }

  /** After "joy" was detected, picking "French" (not offered) falls back to English songs. */
  lemma FrenchFallsBackToEnglish(st: State, classify: string -> string)
    requires st == Init(st) && st[DetectedEmotionKey] == Str("joy") && MusicLangSelectKey !in st
    ensures var o := Rerun(EmotionPlaylists, st, Event("", false, Some("French"), None, ""), classify);
            o.display.Shown? && o.display.choice == Some("English") && o.display.outcome == Songs(JoyEnglish)
  {
    JoyEnglishConfigured();
    DetectedSection(st, "joy", Event("", false, Some("French"), None, ""), classify);
  }
}

=== FILE: pylist.dfy ===
/** Python list and dict lookups, over sequences and association lists. */
module PyList {
  import opened Wrappers

  /**
   * `xs.index(x)`: the first position holding `x`, or `None` where Python
   * raises `ValueError`.
   */
  function IndexOf<T(==)>(xs: seq<T>, x: T): (r: Option<nat>)
    ensures r.None? <==> x !in xs
    ensures r.Some? ==> r.value < |xs| && xs[r.value] == x
    ensures r.Some? ==> forall j :: 0 <= j < r.value ==> xs[j] != x
  {
    if |xs| == 0 then None
    else if xs[0] == x then Some(0)
    else
      match IndexOf(xs[1..], x)
      case None => None
      case Some(i) => Some(i + 1)
  }

  /** `list(d.keys())` for a dict given as its (key, value) pairs in insertion order. */
  function Keys<K, V>(a: seq<(K, V)>): (ks: seq<K>)
    ensures |ks| == |a|
    ensures forall i :: 0 <= i < |a| ==> ks[i] == a[i].0
  {
    if |a| == 0 then [] else [a[0].0] + Keys(a[1..])
  }

  /** No key occurs twice, as in every Python dict. */
  predicate DistinctKeys<K(==), V>(a: seq<(K, V)>) {
    forall i, j :: 0 <= i < j < |a| ==> a[i].0 != a[j].0
  }

  /** `d[k]`: the value stored under `k`, or `None` where Python raises `KeyError`. */
  function Lookup<K(==), V>(a: seq<(K, V)>, k: K): (r: Option<V>)
    ensures r.Some? <==> k in Keys(a)
    ensures forall i :: 0 <= i < |a| && a[i].0 == k && (forall j :: 0 <= j < i ==> a[j].0 != k) ==> r == Some(a[i].1)
  {
    if |a| == 0 then None
    else if a[0].0 == k then Some(a[0].1)
    else
      var r := Lookup(a[1..], k);
      assert Keys(a) == [a[0].0] + Keys(a[1..]);
      r
  }

  /** In a dict without repeated keys, `d[k]` is the value paired with `k` wherever it sits. */
  lemma LookupDistinct<K, V>(a: seq<(K, V)>, i: nat)
    requires DistinctKeys(a)
    requires i < |a|
    ensures Lookup(a, a[i].0) == Some(a[i].1)
  {
  }
}

=== FILE: pystr.dfy ===
/**
 * The Python `str` methods the app relies on: `strip` (for the blank-input
 * test), `lower` (for the classifier label) and `title` (for the emotion
 * written to the feedback row). `strip` uses Python's full whitespace set;
 * `lower` and `title` act on ASCII letters only and leave every other
 * character unchanged.
 */
module PyStr {

  /** Python's `str.isspace` for a single code point. */
  predicate IsSpace(c: char) {
    || ('\t' <= c <= '\r')
    || ('\U{1C}' <= c <= ' ')
    || c == '\U{85}' || c == '\U{A0}' || c == '\U{1680}'
    || ('\U{2000}' <= c <= '\U{200A}')
    || c == '\U{2028}' || c == '\U{2029}' || c == '\U{202F}' || c == '\U{205F}'
    || c == '\U{3000}'
  }

  /** Every character of `s` is whitespace (the empty string included). */
  predicate IsBlank(s: string) {
    forall i :: 0 <= i < |s| ==> IsSpace(s[i])
  }

  /** The first index at or after `i` that does not hold whitespace, or `|s|` when there is none. */
  function SkipSpace(s: string, i: nat): (j: nat)
    requires i <= |s|
    ensures i <= j <= |s|
    ensures forall k :: i <= k < j ==> IsSpace(s[k])
    ensures j == |s| || !IsSpace(s[j])
    decreases |s| - i
  {
    if i < |s| && IsSpace(s[i]) then SkipSpace(s, i + 1) else i
  }

  /** Scanning down from `j` to no lower than `lo`: the index just past the last non-whitespace character. */
  function SkipSpaceBack(s: string, lo: nat, j: nat): (k: nat)
    requires lo <= j <= |s|
    ensures lo <= k <= j
    ensures forall m :: k <= m < j ==> IsSpace(s[m])
    ensures k == lo || !IsSpace(s[k - 1])
    decreases j
  {
    if j > lo && IsSpace(s[j - 1]) then SkipSpaceBack(s, lo, j - 1) else j
  }

  /** `r` is `s` with the whitespace before position `i` and the whitespace after `r` cut off. */
  predicate StrippedAt(s: string, r: string, i: nat) {
    && i + |r| <= |s|
    && r == s[i..i + |r|]
    && (forall k :: 0 <= k < i ==> IsSpace(s[k]))
    && (forall k :: i + |r| <= k < |s| ==> IsSpace(s[k]))
  }

  /**
   * `s.strip()`: leading whitespace removed as `lstrip` does, then trailing
   * whitespace of what remains as `rstrip` does.
   */
  function Strip(s: string): (r: string)
    ensures |r| <= |s|
    ensures r == [] || (!IsSpace(r[0]) && !IsSpace(r[|r| - 1]))
    ensures exists i :: StrippedAt(s, r, i)
  {
    var lo := SkipSpace(s, 0);
    var hi := SkipSpaceBack(s, lo, |s|);
    assert StrippedAt(s, s[lo..hi], lo);
    s[lo..hi]
  }

  /** The app's blank-input test `s.strip() == ""` holds exactly for all-whitespace strings. */
  lemma {:induction false} StripEmptyIffBlank(s: string)
    ensures Strip(s) == [] <==> IsBlank(s)
  {
    var lo := SkipSpace(s, 0);
    var hi := SkipSpaceBack(s, lo, |s|);
    assert Strip(s) == s[lo..hi];
    if IsBlank(s) {
      assert lo == |s|;
    }
  }

  predicate IsUpper(c: char) { 'A' <= c <= 'Z' }

  predicate IsLower(c: char) { 'a' <= c <= 'z' }

  /** A cased character in the sense of `str.title` (ASCII letters only here). */
  predicate IsCased(c: char) { IsUpper(c) || IsLower(c) }

  function LowerChar(c: char): (d: char)
    ensures !IsUpper(d)
    ensures IsCased(d) == IsCased(c)
    ensures IsUpper(c) ==> d as int == c as int + 32
    ensures !IsUpper(c) ==> d == c
  {
    if IsUpper(c) then (c as int + 32) as char else c
  }

  function UpperChar(c: char): (d: char)
    ensures !IsLower(d)
    ensures IsCased(d) == IsCased(c)
    ensures IsLower(c) ==> d as int == c as int - 32
    ensures !IsLower(c) ==> d == c
  {
    if IsLower(c) then (c as int - 32) as char else c
  }

  /** Only the case of a cased character changes under `LowerChar` and `UpperChar`. */
  lemma CaseRoundTrip(c: char)
    ensures LowerChar(UpperChar(c)) == LowerChar(c)
    ensures UpperChar(LowerChar(c)) == UpperChar(c)
  {
  }

  /** `s.lower()` on ASCII letters. */
  function Lower(s: string): (r: string)
    ensures |r| == |s|
    ensures forall i :: 0 <= i < |r| ==> !IsUpper(r[i])
    ensures forall i :: 0 <= i < |s| ==> r[i] == LowerChar(s[i])
  {
    if s == [] then [] else [LowerChar(s[0])] + Lower(s[1..])
  }

  /** Lowering twice is lowering once; a string without capitals is its own lower case. */
  lemma LowerIdempotent(s: string)
    ensures Lower(Lower(s)) == Lower(s)
    ensures (forall i :: 0 <= i < |s| ==> !IsUpper(s[i])) <==> Lower(s) == s
  {
    if forall i :: 0 <= i < |s| ==> !IsUpper(s[i]) {
      assert forall i :: 0 <= i < |s| ==> Lower(s)[i] == s[i];
    }
  }

  /**
   * `str.title` scanning from a given state: a cased character is
   * upper-cased when the previous character was not cased, and lower-cased
   * when it was.
   */
  function TitleFrom(s: string, prevCased: bool): (r: string)
    ensures |r| == |s|
    ensures forall i :: 0 <= i < |s| ==>
              r[i] == (if (if i == 0 then prevCased else IsCased(s[i - 1])) then LowerChar(s[i]) else UpperChar(s[i]))
  {
    if s == [] then []
    else
      var c := if prevCased then LowerChar(s[0]) else UpperChar(s[0]);
      [c] + TitleFrom(s[1..], IsCased(s[0]))
  }

  /** `s.title()` on ASCII letters. */
  function Title(s: string): (r: string)
    ensures |r| == |s|
    ensures forall i :: 0 <= i < |s| ==>
              r[i] == (if i > 0 && IsCased(s[i - 1]) then LowerChar(s[i]) else UpperChar(s[i]))
  {
    TitleFrom(s, false)
  }

  /** Title case does not depend on the case the input was in. */
  lemma {:induction false} TitleFromIgnoresCase(s: string, prevCased: bool)
    ensures TitleFrom(Lower(s), prevCased) == TitleFrom(s, prevCased)
  {
    if s != [] {
      assert Lower(s)[1..] == Lower(s[1..]);
      TitleFromIgnoresCase(s[1..], IsCased(s[0]));
      CaseRoundTrip(s[0]);
    }
  }

  /** `x.lower().title() == x.title()`: lowering the classifier label loses nothing the feedback row shows. */
  lemma TitleOfLower(s: string)
    ensures Title(Lower(s)) == Title(s)
  {
    TitleFromIgnoresCase(s, false);
  }

  /** A single lower-case word is title-cased by capitalising its first letter only. */
  lemma {:induction false} TitleOfLowerWord(w: string)
    requires w != []
    requires forall i :: 0 <= i < |w| ==> IsLower(w[i])
    ensures Title(w) == [UpperChar(w[0])] + w[1..]
  {
    LowerWordAfterCased(w[1..]);
  }

  lemma {:induction false} LowerWordAfterCased(w: string)
    requires forall i :: 0 <= i < |w| ==> IsLower(w[i])
    ensures TitleFrom(w, true) == w
  {
    if w != [] {
      LowerWordAfterCased(w[1..]);
    }
  }
}

=== FILE: recommend.dfy ===
/**
 * The recommendation section of the page: which languages the selector
 * offers, which one it starts on, and what the page shows for the chosen
 * language.
 */
module Recommend {
  import opened Wrappers
  import opened Errors
  import opened PyList
  import opened Catalog
  import opened Session

  /** `list(EMOTION_PLAYLISTS[emotion].keys())`, which raises `KeyError` for an unknown emotion. */
  function LanguagesAvailable(c: Playlists, emotion: string): (r: Result<seq<string>, PyError>)
    ensures r.Failure? <==> emotion !in Keys(c)
    ensures r.Failure? ==> r.error == KeyError(emotion)
    ensures r.Success? ==> |r.value| == |Lookup(c, emotion).value|
    ensures r.Success? ==> forall i :: 0 <= i < |r.value| ==> r.value[i] == Lookup(c, emotion).value[i].0
    ensures r.Success? ==> forall l :: l in r.value <==> Lookup(Lookup(c, emotion).value, l).Some?
  {
    match Lookup(c, emotion)
    case None => Failure(KeyError(emotion))
    case Some(table) => Success(Keys(table))
  }

  /** The language the selector should start on: `music_lang_select` when set, else "English". */
  function TargetLanguage(st: State): (v: Value)
    ensures MusicLangSelectKey in st ==> v == st[MusicLangSelectKey]
    ensures MusicLangSelectKey !in st ==> v == Str("English")
  {
    Get(st, MusicLangSelectKey, Str("English"))
  }

  /**
   * The selector's starting index: the first position of the target
   * language, or 0 when `list.index` raises `ValueError`.
   */
  function DefaultLangIndex(langs: seq<string>, st: State): (r: nat)
    ensures |langs| > 0 ==> r < |langs|
    ensures TargetLanguage(st).Str? && TargetLanguage(st).s in langs ==>
              langs[r] == TargetLanguage(st).s && forall j :: 0 <= j < r ==> langs[j] != TargetLanguage(st).s
    ensures !(TargetLanguage(st).Str? && TargetLanguage(st).s in langs) ==> r == 0
  {
    match TargetLanguage(st)
    case PyNone => 0
    case Str(t) => IndexOf(langs, t).GetOr(0)
  }

  /**
   * The value the language selector returns: the user's current pick when
   * it is still one of the options, otherwise the option at `index`, and
   * `None` when there are no options at all.
   */
  function Selectbox(options: seq<string>, index: nat, pick: Option<string>): (r: Option<string>)
    requires index < |options| || |options| == 0
    ensures r.None? <==> |options| == 0
    ensures r.Some? ==> r.value in options
    ensures pick.Some? && pick.value in options ==> r == pick
    ensures |options| > 0 && !(pick.Some? && pick.value in options) ==> r == Some(options[index])
  {
    if pick.Some? && pick.value in options then pick
    else if |options| == 0 then None
    else Some(options[index])
  }

  /** What the page shows for an emotion and a language. */
  datatype Resolution =
    | Songs(songs: seq<Song>)   // the song links, in configured order
    | NoSongs                   // the language is configured with an empty list
    | NotFound                  // the emotion or the language is not in the table

  /** The list configured for an emotion and a language, if both are keys. */
  function Configured(c: Playlists, emotion: string, language: string): Option<seq<Song>> {
    match Lookup(c, emotion)
    case None => None
    case Some(table) => Lookup(table, language)
  }

  /** The guarded lookup and the non-empty test that pick one of the three outcomes. */
  function Resolve(c: Playlists, emotion: string, language: Option<string>): (r: Resolution)
    ensures r == NotFound <==> language.None? || Configured(c, emotion, language.value).None?
    ensures r == NoSongs <==> language.Some? && Configured(c, emotion, language.value) == Some([])
    ensures r.Songs? ==> language.Some? && Configured(c, emotion, language.value) == Some(r.songs) && r.songs != []
  {
    if language.Some? && emotion in Keys(c) && language.value in Keys(Lookup(c, emotion).value) then
      var songs := Lookup(Lookup(c, emotion).value, language.value).value;
      if |songs| > 0 then Songs(songs) else NoSongs
    else
      NotFound
  }

  /** A language taken from the available list never reaches the "not found" branch. */
  lemma ResolveAvailable(c: Playlists, emotion: string, language: string)
    requires LanguagesAvailable(c, emotion).Success?
    requires language in LanguagesAvailable(c, emotion).value
    ensures Resolve(c, emotion, Some(language)) != NotFound
    ensures Resolve(c, emotion, Some(language)) == NoSongs <==> Configured(c, emotion, language) == Some([])
  {
  }

  /** The recommendation section as rendered. */
  datatype Display =
    | Hidden                      // no truthy detected emotion: the section is skipped
    | Crashed(error: PyError)     // an exception stops the script
    | Shown(languages: seq<string>, defaultIndex: nat, choice: Option<string>, outcome: Resolution)

  /**
   * The section after the button handler: shown only for a truthy detected
   * emotion; the language list is computed by indexing the table directly,
   * before the guarded lookup.
   */
  function Recommendations(c: Playlists, st: State, pick: Option<string>): (d: Display)
    ensures DetectedEmotionKey !in st ==> d == Crashed(AttributeError(DetectedEmotionKey))
    ensures DetectedEmotionKey in st ==> (d == Hidden <==> !Truthy(st[DetectedEmotionKey]))
    ensures DetectedEmotionKey in st && Truthy(st[DetectedEmotionKey]) ==>
              (d.Crashed? <==> st[DetectedEmotionKey].s !in Keys(c))
    ensures d.Crashed? && DetectedEmotionKey in st ==> d.error == KeyError(st[DetectedEmotionKey].s)
    ensures d.Shown? ==> LanguagesAvailable(c, st[DetectedEmotionKey].s) == Success(d.languages)
    ensures d.Shown? && d.languages != [] ==> d.defaultIndex < |d.languages| && d.choice.Some?
    ensures d.Shown? ==> (d.outcome == NotFound <==> d.languages == [])
    ensures d.Shown? ==> d.defaultIndex == DefaultLangIndex(d.languages, st)
    ensures d.Shown? ==> d.choice == Selectbox(d.languages, d.defaultIndex, pick)
    ensures d.Shown? ==> d.outcome == Resolve(c, st[DetectedEmotionKey].s, d.choice)
  {
    if DetectedEmotionKey !in st then Crashed(AttributeError(DetectedEmotionKey))
    else if !Truthy(st[DetectedEmotionKey]) then Hidden
    else
      var emotion := st[DetectedEmotionKey].s;
      match LanguagesAvailable(c, emotion)
      case Failure(e) => Crashed(e)
      case Success(langs) =>
        var index := DefaultLangIndex(langs, st);
        var choice := Selectbox(langs, index, pick);
        Shown(langs, index, choice, Resolve(c, emotion, choice))
  }

  /** With a well-formed table the "not found" branch is unreachable. */
  lemma NotFoundUnreachable(c: Playlists, st: State, pick: Option<string>)
    requires WellFormed(c)
    ensures Recommendations(c, st, pick).Shown? ==> Recommendations(c, st, pick).outcome != NotFound
  {
    var d := Recommendations(c, st, pick);
    if d.Shown? {
      var emotion := st[DetectedEmotionKey].s;
      var i := IndexOf(Keys(c), emotion).value;
      LookupDistinct(c, i);
      assert |d.languages| == |c[i].1| > 0;
    }
  }
}

/** Facts about the recommendation section for the table the app ships. */
module Shipped {
  import opened Wrappers
  import opened Errors
  import opened PyList
  import opened Catalog
  import opened Session
  import opened Recommend

  /** Every shipped emotion offers the four languages in declaration order; any other label raises `KeyError`. */
  lemma ShippedLanguages(emotion: string)
    ensures emotion in Emotions ==> LanguagesAvailable(EmotionPlaylists, emotion) == Success(Languages)
    ensures emotion !in Emotions ==> LanguagesAvailable(EmotionPlaylists, emotion) == Failure(KeyError(emotion))
  {
    CatalogShape();
    if emotion in Emotions {
      var i := IndexOf(Emotions, emotion).value;
      CatalogWellFormed();
      LookupDistinct(EmotionPlaylists, i);
    }
  }

  /** For a shipped emotion and language the page always lists songs; neither empty-result branch is reached. */
  lemma ShippedResolve(emotion: string, language: string)
    requires emotion in Emotions && language in Languages
    ensures Resolve(EmotionPlaylists, emotion, Some(language)).Songs?
  {
    ShippedLanguages(emotion);
    CatalogShape();
    CatalogWellFormed();
    var i := IndexOf(Emotions, emotion).value;
    LookupDistinct(EmotionPlaylists, i);
    var j := IndexOf(Languages, language).value;
    LookupDistinct(EmotionPlaylists[i].1, j);
  }

  /** Without `music_lang_select` the selector starts on English, the first language of every shipped emotion. */
  lemma ShippedDefaultIsEnglish(st: State)
    requires MusicLangSelectKey !in st
    ensures DefaultLangIndex(Languages, st) == 0
    ensures Languages[DefaultLangIndex(Languages, st)] == "English"
  {
  }

  /**
   * Whenever the section is shown for the shipped table it offers the four
   * languages and lists the configured songs of the chosen one.
   */
  lemma ShippedRecommendations(st: State, pick: Option<string>)
    ensures var d := Recommendations(EmotionPlaylists, st, pick);
            d.Shown? ==> && d.languages == Languages && d.choice.Some? && d.choice.value in Languages
                         && d.outcome.Songs?
                         && d.outcome.songs == Configured(EmotionPlaylists, st[DetectedEmotionKey].s, d.choice.value).value
  {
    var d := Recommendations(EmotionPlaylists, st, pick);
    if d.Shown? {
      var emotion := st[DetectedEmotionKey].s;
      ShippedLanguages(emotion);
      ShippedResolve(emotion, d.choice.value);
    }
  }
}

=== FILE: session.dfy ===
/**
 * The part of `st.session_state` the script reads and writes, and the two
 * transitions it makes on it: the initialiser that runs at the top of every
 * rerun, and the "Get My Playlist!" button handler.
 */
module Session {
  import PyStr

  /** The values this script stores in the session: `None` or a `str`. */
  datatype Value = PyNone | Str(s: string)

  /** `st.session_state`, a dict from key to stored value. */
  type State = map<string, Value>

  const DetectedEmotionKey: string := "detected_emotion"
  const UserTextKey: string := "user_text_for_feedback"
  /** Written by the language selector widget. */
  const MainLangChoiceKey: string := "main_lang_choice"
  /** Read when choosing the default language; nothing in the script writes it. */
  const MusicLangSelectKey: string := "music_lang_select"

  /** Python truthiness of a stored value: a non-empty string. */
  predicate Truthy(v: Value) {
    v.Str? && v.s != ""
  }

  /** `st.session_state.get(key, default)`. */
  function Get(st: State, key: string, default: Value): (v: Value)
    ensures key in st ==> v == st[key]
    ensures key !in st ==> v == default
  {
    if key in st then st[key] else default
  }

  /** Both keys the script reads by attribute are present. */
  predicate Initialised(st: State) {
    DetectedEmotionKey in st && UserTextKey in st
  }

  /**
   * The initialiser: `detected_emotion` becomes `None` and
   * `user_text_for_feedback` becomes `""`, each only when absent.
   */
  function Init(st: State): (r: State)
    ensures Initialised(r)
    ensures r.Keys == st.Keys + {DetectedEmotionKey, UserTextKey}
    ensures forall k :: k in st ==> r[k] == st[k]
    ensures DetectedEmotionKey !in st ==> r[DetectedEmotionKey] == PyNone
    ensures UserTextKey !in st ==> r[UserTextKey] == Str("")
  {
    var st1 := if DetectedEmotionKey !in st then st[DetectedEmotionKey := PyNone] else st;
    if UserTextKey !in st1 then st1[UserTextKey := Str("")] else st1
  }

  /** The initialiser leaves an initialised session alone, so running it on every rerun is harmless. */
  lemma InitIdempotent(st: State)
    ensures Initialised(st) ==> Init(st) == st
    ensures Init(Init(st)) == Init(st)
  {
  }

  /**
   * A click on "Get My Playlist!" with `text` in the text area. A blank text
   * (`text.strip() == ""`) resets the detected emotion; any other text is
   * classified, and the lower-cased label and the raw text are stored
   * together. `classify` stands for the model pipeline's top label.
   */
  function Submit(st: State, text: string, classify: string -> string): (r: State)
    ensures PyStr.IsBlank(text) ==> r == st[DetectedEmotionKey := PyNone]
    ensures !PyStr.IsBlank(text) ==>
              r == st[DetectedEmotionKey := Str(PyStr.Lower(classify(text)))][UserTextKey := Str(text)]
  {
    PyStr.StripEmptyIffBlank(text);
    if PyStr.Strip(text) == "" then
      st[DetectedEmotionKey := PyNone]
    else
      var emotion := PyStr.Lower(classify(text));
      st[DetectedEmotionKey := Str(emotion)][UserTextKey := Str(text)]
  }

  /** A blank submission never consults the classifier: any two classifiers give the same state. */
  lemma BlankSubmitIgnoresClassifier(st: State, text: string, c1: string -> string, c2: string -> string)
    requires PyStr.IsBlank(text)
    ensures Submit(st, text, c1) == Submit(st, text, c2)
    ensures Submit(st, text, c1)[DetectedEmotionKey] == PyNone
    ensures UserTextKey in st ==> Submit(st, text, c1)[UserTextKey] == st[UserTextKey]
  {
  }

  /**
   * A submission changes only `detected_emotion` and `user_text_for_feedback`;
   * every other key, the language keys included, is untouched.
   */
  lemma SubmitFrame(st: State, text: string, classify: string -> string, k: string)
    requires k != DetectedEmotionKey && k != UserTextKey
    ensures k in Submit(st, text, classify) <==> k in st
    ensures k in st ==> Submit(st, text, classify)[k] == st[k]
  {
  }

  /** The button handler keeps the session initialised. */
  lemma SubmitKeepsInitialised(st: State, text: string, classify: string -> string)
    requires Initialised(st)
    ensures Initialised(Submit(st, text, classify))
  {
  }
}

=== FILE: wrappers.dfy ===
/** Failure-carrying datatypes shared by the model. */
module Wrappers {

  /** Python's `None`-or-value, used for lookups that may miss. */
  datatype Option<+T> = None | Some(value: T) {

    /** The carried value, or `default` when there is none. */
    function GetOr(default: T): T {
      match this
      case Some(v) => v
      case None => default
    }
  }

  /** Either a value or the exception the Python code would raise. */
  datatype Result<+T, +E> = Success(value: T) | Failure(error: E)
}
